=== FILE: README.md ===
# Retail-Arbitrage price search, modelled in Dafny

`scrape_prices` in `ai_scraper.py` searches Amazon best-seller listings for a
product through an Apify actor run and turns them into a price comparison.
It submits the run, polls the run's status at most ten times, downloads the
run's dataset, normalises every dataset item into a listing (price read from
the first usable price field, display fields with fixed fallbacks), takes the
first cheapest listing's price as the base price and adds to each listing its
profit against that base, its profit margin and a recommendation flag. Every
handled failure is returned as a dictionary with an `error` text, no listings
and base price 0; a listing priced at zero makes the margin division raise a
`ZeroDivisionError` that escapes the function.

This project models that pipeline with the remote service replaced by its
replies, which are inputs: the reply to the run submission (the run id it
carries, if any), the reply to each status check the poller may make, and the
reply to the dataset request. A reply is either an answer or a request
failure (any exception of the `requests` library, which `scrape_prices`
catches as one case).

- `wrappers.dfy`, `remote.dfy`: `Option`, the JSON values an item holds
  (`null`, number, boolean, string, array or object), replies and run
  statuses.
- `poller.dfy`: the status-polling `while` loop (`Poller.Poll`), proved equal
  to its specification `Poller.PollOf`, and the properties of the poller.
- `price_text.dfy`: the cleaning expression for textual prices and the
  decimal subset of Python's `float()`.
- `normalizer.dfy`: the listing record (the six keys each item yields and the
  three profit keys added later), the price-field search loop and the
  normalisation loop.
- `profits.dfy`: base price, `round(·, 2)` and the in-place profit loop over
  an array of listings, with the division by a zero price as an explicit
  crash flag.
- `scraper.dfy`: `scrape_prices` end to end (`Scraper.ScrapePrices`) and its
  specification `Scraper.Scrape`, whose outcome is a returned result or
  `Crashed`, the `ZeroDivisionError` that escapes the function. A returned
  result carries its listings, its base price and, on failure, the `error`
  text (`Scraper.ErrorText`).

## Model

| member | source | states |
|---|---|---|
| Poller.SettleFrom | ai_scraper.py:88-115 | the check at which polling settles is the first reply that is not pending (a success, a failure status or a request failure), or the budget of 10 when all are pending |
| Poller.PollOf | ai_scraper.py:88-118 | polling makes between 1 and 10 status checks, every reply before the last one made was pending; items are returned only after a SUCCEEDED reply on a check before the 10th; a run failure carries the reported status, which is FAILED, ABORTED or TIMED-OUT |
| Poller.Poll | ai_scraper.py:84-118 | the `while` loop with its `break` and early returns yields exactly the outcome and number of checks of `PollOf` |
| Poller.SettlesAt | ai_scraper.py:88-115 | when the replies before check k are all pending and reply k is not, polling settles at k |
| Poller.FailureStopsPolling | ai_scraper.py:107-110 | fail-fast: FAILED, ABORTED or TIMED-OUT after pending replies ends polling at that very check with that status |
| Poller.PendingMeansAnotherCheck | ai_scraper.py:111-117 | a pending reply, including a missing status, leads to a further check unless the budget is used up, in which case the result is a timeout after 10 checks |
| Poller.SuccessWithinBudget | ai_scraper.py:100-106 | SUCCEEDED on check k+1 < 10 yields the dataset items after k+1 checks |
| Poller.SuccessOnLastCheckTimesOut | ai_scraper.py:100-118 | SUCCEEDED on exactly the 10th check is still reported as a timeout, because the budget test after the loop is `attempts >= max_attempts` |
| Poller.AllPendingTimesOut | ai_scraper.py:88-118 | ten pending replies give a timeout after 10 checks |
| Poller.PollReadsOnlyItsChecks | ai_scraper.py:88-115 | no further checks: changing the replies after the last check made does not change the outcome |
| Poller.PendingRunningSucceeded | ai_scraper.py:88-106 | PENDING, RUNNING, SUCCEEDED yields the items after 3 checks |
| Poller.FailedAtFirstCheck | ai_scraper.py:107-110 | FAILED on the first check fails after 1 check |
| PriceText.Without | ai_scraper.py:143 | `replace(c, "")` leaves no c, keeps every other character exactly as often as it occurs, adds none and changes nothing when c is absent |
| PriceText.WithoutConcat | ai_scraper.py:143 | removal works piecewise on a concatenation, so the kept characters stay in their order |
| PriceText.SkipSpaces | ai_scraper.py:143 | the first non-whitespace index from i on |
| PriceText.SkipSpacesBack | ai_scraper.py:143 | the end of a range once its trailing whitespace is cut |
| PriceText.Strip | ai_scraper.py:143 | `strip()` yields a contiguous piece of the text, with only whitespace cut before and after it and no whitespace at its ends |
| PriceText.StripKeepsOthers | ai_scraper.py:143 | `strip()` keeps every non-whitespace character exactly as often as it occurs |
| PriceText.SpacesOnly | ai_scraper.py:143 | a run of whitespace holds no other character |
| PriceText.SpaceIsNoPriceChar | ai_scraper.py:143 | the whitespace `str.isspace` accepts contains no currency mark, comma, digit, point or sign, so `strip()` never cuts into a price |
| PriceText.CleanMeansNoMark | ai_scraper.py:143 | a text is clean exactly when it holds none of the four characters the cleaning removes |
| PriceText.WithoutMarks | ai_scraper.py:143 | the four `replace` calls leave none of `$`, `€`, `£`, `,`, keep every other character exactly as often as it occurs and keep text without them unchanged |
| PriceText.CleanPriceString | ai_scraper.py:143 | the cleaned text has no currency mark or comma and no whitespace at its ends, and every character that is neither a mark nor whitespace keeps its count |
| PriceText.CleanedIsPiece | ai_scraper.py:143 | the cleaned text is the contiguous piece of the mark-free text from its first to its last non-whitespace character |
| PriceText.CleanedCutsOnlySpaces | ai_scraper.py:143 | what cleaning cuts from the mark-free text before and after that piece is whitespace only |
| PriceText.StripKeepsStripped | ai_scraper.py:143 | text without whitespace at its ends is unchanged by `strip()` |
| PriceText.CleanPriceStringIdempotent | ai_scraper.py:143 | cleaning a cleaned text changes nothing |
| PriceText.ParseUnsigned | ai_scraper.py:144 | an unsigned number text `float()` accepts is digits with at most one point (the first) and at least one digit, and its value is not negative |
| PriceText.ParseFloat | ai_scraper.py:144 | a text `float()` accepts holds only digits and at most one decimal point after an optional leading sign, and at least one digit |
| PriceText.DotIndex | ai_scraper.py:144 | the position of the first decimal point, or the length when there is none |
| PriceText.NatTextValue | ai_scraper.py:144 | decimal digits denote the number they spell |
| PriceText.ParseNatText | ai_scraper.py:144 | `float()` of the decimal digits of n is n |
| PriceText.ParseDecimalText | ai_scraper.py:144 | `float()` of `whole.frac` is whole + frac / 10^len(frac) |
| PriceText.ParseCentsText | ai_scraper.py:144 | `float()` of an amount written with two decimals gives cents / 100 |
| PriceText.NegativeText | ai_scraper.py:144 | a leading minus negates the value, so negative prices are read |
| PriceText.WithoutSingle | ai_scraper.py:143 | removing the single occurrence of a character splices the two sides together |
| PriceText.NoDigitNoPrice | ai_scraper.py:143-144 | a text without digits, such as "N/A", yields no price |
| PriceText.StripKeepsNumberText | ai_scraper.py:143 | digits and dots have no whitespace to strip |
| PriceText.MarksDropped | ai_scraper.py:143 | a leading `$` and a thousands comma are removed and nothing else is |
| PriceText.DropsSignAndSeparator | ai_scraper.py:143 | cleaning `$` + digits + `,` + digits and dots leaves the digits and dots |
| PriceText.DollarCents | ai_scraper.py:141-144 | any dollar amount written with two decimals is read as that amount |
| PriceText.ReadsDollarExample | ai_scraper.py:141-144 | "$49.99" is read as 49.99 |
| PriceText.ReadsDecimalExample | ai_scraper.py:144 | "1299.99" is read as 1299.99 |
| PriceText.CleansDollarExample | ai_scraper.py:143-144 | "$1,299.99" cleans to "1299.99" and is read as 1299.99 |
| Normalizer.FirstUsable | ai_scraper.py:130-133 | the index of the first field that is present with a non-null value, every earlier field being absent or null |
| Normalizer.SelectPriceField | ai_scraper.py:126-133 | the field-search loop with `break` picks the first of price, Price, cost, amount, value that is present and non-null, or none |
| Normalizer.PriceOf | ai_scraper.py:138-144 | a number is the price unchanged, a boolean is 1 or 0, a null, array or object gives no price, and a string gives one only when it holds a digit |
| Normalizer.ListingFor | ai_scraper.py:147-154 | the listing holds the price, site "Amazon", no profit keys, and title, link, rating and reviews from their keys or, only when a key is absent, from their fallbacks |
| Normalizer.NormalizeItem | ai_scraper.py:126-157 | an item yields a listing exactly when its first usable price field holds a value that yields a price, and the listing is built from that price |
| Normalizer.NormalizeAll | ai_scraper.py:120-157 | there are never more listings than items, and every listing is on Amazon without profit keys |
| Normalizer.Normalize | ai_scraper.py:120-157 | the normalisation loop appends, item by item, exactly the listings of `NormalizeAll` |
| Normalizer.NormalizeAllAppend | ai_scraper.py:120-157 | normalising two runs of items one after the other gives the concatenation of their listings |
| Normalizer.SingleItem | ai_scraper.py:135-157 | one item contributes its own listing or nothing |
| Normalizer.NormalizeAllOrigins | ai_scraper.py:120-157 | each listing is the listing of an item, and listings keep the order of their items |
| Normalizer.NormalizeItemFields | ai_scraper.py:135-154 | a kept item's price comes from its first usable field; title falls back to name then "Unknown product", link to url then link then "#", rating to "No rating", reviews to "0 reviews", each only when the key is absent (a null value is kept); site is "Amazon" and there are no profit keys yet |
| Normalizer.NoFallbackAfterBadPrice | ai_scraper.py:129-157 | the item {"price": "N/A", "cost": 5} yields no listing: its chosen field does not parse and the later numeric `cost` is not tried |
| Normalizer.NumericPriceKept | ai_scraper.py:139-140 | a numeric price is used unchanged |
| Normalizer.OtherValueSkipped | ai_scraper.py:139-146 | a price value that is an array or an object yields no listing |
| Normalizer.WidgetExample | ai_scraper.py:135-154 | {"price": "$49.99", "title": "Widget"} becomes a Widget listing at 49.99 with link "#", rating "No rating", reviews "0 reviews" on Amazon |
| Profits.Round2 | ai_scraper.py:167-168 | `round(x, 2)` moves x by at most half a cent and keeps its sign |
| Profits.CheapestIndex | ai_scraper.py:163 | `min(..., key=price)` picks a listing whose price is at most every price, and every earlier listing is strictly dearer (the first minimum) |
| Profits.BasePrice | ai_scraper.py:163 | the base price is at most every listing's price and is the price of some listing |
| Profits.ZeroAt | ai_scraper.py:166-168 | the first listing priced at zero, where the margin division raises, or the end of the list |
| Profits.ComputeProfits | ai_scraper.py:163-169 | the base price is the first minimum; it crashes exactly when some price is zero; the listings before the first zero price get all three profit keys, that listing gets `profit` only (line 167 runs before line 168 raises), and the rest are untouched |
| Profits.AddProfits | ai_scraper.py:166-169 | the loop with its in-place writes: the same crash condition and the same updated prefix, partly updated listing and untouched suffix |
| Profits.LoopResult | ai_scraper.py:166-169 | where the loop stops is the first zero price, and the pointwise state there is the updated prefix and the untouched suffix |
| Profits.WithProfits | ai_scraper.py:166-169 | the profit step keeps the number of listings |
| Profits.ListingMetrics | ai_scraper.py:167-169 | one listing's keys: its price and display fields kept, profit and margin within half a cent of base − price and (base − price) / price × 100, and recommend holds exactly when the margin is at least 20 |
| Profits.ProfitsNotPositive | ai_scraper.py:163-167 | every profit is at most 0, since the base price is the minimum |
| Profits.CheapestBreaksEven | ai_scraper.py:163-169 | the cheapest listing gets profit 0, margin 0 and no recommendation |
| Profits.DisplayFieldsKept | ai_scraper.py:166-169 | every listing of the profit step keeps its price and display fields and gets all three keys |
| Profits.MarginNotPositive | ai_scraper.py:168 | a positive price not below the base gives a margin at most 0 |
| Profits.NoRecommendationWhenPricesPositive | ai_scraper.py:166-169 | when every price is positive, no listing is recommended |
| Profits.TwoListingsExample | ai_scraper.py:163-169 | prices 10 and 20 give base 10 and, for the second, profit −10, margin −50 and no recommendation |
| Profits.ZeroPriceExample | ai_scraper.py:163-168 | prices 10 and 0: base 0, the loop stops at the second listing, whose profit 0 is written before the division raises; the first gets profit −10 |
| Scraper.Priced | ai_scraper.py:159-171 | no listings give the "No pricing data" error; the function raises exactly when some listing is priced at zero; non-empty listings without a zero price give a result without error, with as many listings as were normalised |
| Scraper.Scrape | ai_scraper.py:76-191 | a failed submission request gives the "API request failed" error and a missing or empty run id the "No run ID found in the Apify response" error; nothing succeeds or crashes without a run id; every handled failure has no listings and base price 0, every success has listings, and a crash happens only after the run succeeded in time |
| Scraper.ScrapePrices | ai_scraper.py:76-171 | the whole function yields exactly the outcome of `Scrape` for the given replies |
| Scraper.PriceListings | ai_scraper.py:159-171 | the steps after normalising (empty check, then the profit loop on the listings) yield the outcome `Priced` specifies |
| Scraper.ListingsReturned | ai_scraper.py:76-171 | end to end, a run id, a run that succeeded in time and non-empty normalised listings without a zero price give a result without error, with as many listings as normalisation produced |
| Scraper.ResultFromItems | ai_scraper.py:99-171 | a result without error comes from a run that succeeded in time, through the pricing of its normalised items |
| Scraper.PricedListings | ai_scraper.py:163-171 | successful pricing keeps every listing's price and display fields, adds all three profit keys, takes the base price from one listing and at most each price, and shows no positive profit |
| Scraper.SuccessfulResult | ai_scraper.py:76-171 | a successful search has between 1 and as many listings as dataset items, all on Amazon with profit keys and no positive profit, and a base price that is one of the prices and at most each |
| Scraper.CrashOnlyOnZeroPrice | ai_scraper.py:166-169 | the search raises exactly when the run id is present, the run succeeded in time and some listing is priced at zero |
| Scraper.SuccessOnTenthCheckReportsTimeout | ai_scraper.py:84-118 | end to end, a run that succeeds on the 10th check gives the "Timed out waiting for Apify results" error although its dataset was fetched |

## Left out

- `interpret_query` (ai_scraper.py:17-36): a call to a language model whose answer is not determined by its input.
- HTTP requests, `raise_for_status` and JSON decoding: replaced by the replies passed in; every exception of the `requests` library, including a JSON decode error, is one `RequestFailure` reply.
- The run id is modelled as an optional string; a non-string id and a `data` value that is not a dictionary (an `AttributeError` that escapes) are not modelled.
- The dataset reply is modelled as a list of dictionaries; a dataset that is not a list of dictionaries is not modelled.
- `time.sleep(5)` and all debugging output have no effect on the result and are left out.
- The `details` text of the error dictionaries, the exception message appended to "API request failed: " and tracebacks are left out; a failed request's `error` text is that fixed prefix (`Scraper.ErrorText`).
- The "Data processing error" handler (ai_scraper.py:193-203): with the replies typed, no `ValueError`, `KeyError` or `TypeError` reaches it, so the model has no such outcome.
- Floating point: prices are exact reals. `Profits.Round2` rounds exact reals half to even, not the binary doubles Python rounds; float overflow and the precision of `float()` are not modelled.
- `PriceText.ParseFloat`: only an optional sign and decimal digits with at most one point; exponents, `inf`, `nan`, digit-group underscores and non-ASCII decimal digits (`float("４９.９９")` is 49.99), which Python's `float()` also accepts, are not modelled and such texts yield no price here.
- An integer price too large for `float()` (an `OverflowError` that escapes) is not modelled; JSON numbers are exact reals.
- Environment and key loading and the OpenAI client (ai_scraper.py:4-14), and the Flask front end in `app.py`.
- `Poller.Poll` takes at least ten status replies, one for every check the poller may make; the ones after the last check made are never read (`Poller.PollReadsOnlyItsChecks`).
- The model follows the code: the failure statuses are FAILED, ABORTED and TIMED-OUT (with a hyphen); negative prices are accepted; and a zero price is not guarded, so its `ZeroDivisionError` escapes `scrape_prices` (`Scraper.Outcome.Crashed`).

=== FILE: normalizer.dfy ===
/**
 * The result normaliser of `scrape_prices`: each dataset item becomes a
 * price listing when its first present, non-null price field yields a price,
 * and is skipped otherwise.
 */
module Normalizer {
  import opened Wrappers
  import opened Remote
  import PriceText

  /**
   * A price listing. The display fields hold whatever value the item had
   * under their key (null included); `profit`, `profitMargin` and
   * `recommend` are None until the profit step adds those keys.
   */
  datatype Listing = Listing(
    title: Value,
    price: real,
    link: Value,
    site: string,
    rating: Value,
    reviews: Value,
    profit: Option<real>,
    profitMargin: Option<real>,
    recommend: Option<bool>)

  /** A listing as normalisation builds it: on Amazon, without profit keys. */
  predicate Fresh(l: Listing) {
    l.site == "Amazon" && l.profit == None && l.profitMargin == None && l.recommend == None
  }

  /** The candidate price fields, in the order they are tried. */
  const PriceFields: seq<string> := ["price", "Price", "cost", "amount", "value"]

  /** A field the item has, with a value other than null. */
  predicate Usable(item: RawItem, field: string) {
    field in item && item[field] != VNull
  }

  /** The index of the first usable field among `fields`, or |fields| when none is. */
  function FirstUsable(item: RawItem, fields: seq<string>): (i: nat)
    ensures i <= |fields|
    ensures forall j :: 0 <= j < i ==> !Usable(item, fields[j])
    ensures i < |fields| ==> Usable(item, fields[i])
  {
    if fields == [] then 0
    else if Usable(item, fields[0]) then 0
    else 1 + FirstUsable(item, fields[1..])
  }

  /** The price-field search: the first candidate field present with a non-null value. */
  method SelectPriceField(item: RawItem) returns (field: Option<string>)
    ensures field.Some? <==> FirstUsable(item, PriceFields) < |PriceFields|
    ensures field.Some? ==> field.value == PriceFields[FirstUsable(item, PriceFields)]
  {
    field := None;
    for i := 0 to |PriceFields|
      invariant field == None
      invariant forall j :: 0 <= j < i ==> !Usable(item, PriceFields[j])
    {
      if PriceFields[i] in item && item[PriceFields[i]] != VNull {
        field := Some(PriceFields[i]);
        break;
      }
    }
  }

  /**
   * The price read from the chosen field's value: a number is used as it is,
   * a string is cleaned and parsed, and any other value gives no price.
   */
  function PriceOf(v: Value): (r: Option<real>)
    ensures v.VNum? ==> r == Some(v.num)
    ensures v.VBool? ==> r == Some(if v.b then 1.0 else 0.0)
    ensures v.VNull? || v.VOther? ==> r == None
    ensures v.VStr? && r.Some? ==> exists k :: 0 <= k < |v.str| && PriceText.IsDigit(v.str[k])
  {
    match v
    case VNum(x) => Some(x)
    case VBool(b) => Some(if b then 1.0 else 0.0)
    case VStr(s) =>
      var r := PriceText.ParseFloat(PriceText.CleanPriceString(s));
      if r.Some? then
        var t := PriceText.CleanPriceString(s);
        var k :| 0 <= k < |t| && PriceText.IsDigit(t[k]);
        assert t[k] in s;
        r
      else r
    case _ => None
  }

  /** `item.get(key, default)`: the default applies only when the key is absent. */
  function Get(item: RawItem, key: string, default: Value): Value {
    if key in item then item[key] else default
  }

  /** The listing built for an item whose price has been read. */
  function ListingFor(item: RawItem, price: real): (l: Listing)
    ensures Fresh(l) && l.price == price
    ensures l.title == (if "title" in item then item["title"]
                        else if "name" in item then item["name"] else VStr("Unknown product"))
    ensures l.link == (if "url" in item then item["url"]
                       else if "link" in item then item["link"] else VStr("#"))
    ensures l.rating == (if "rating" in item then item["rating"] else VStr("No rating"))
    ensures l.reviews == (if "reviews" in item then item["reviews"] else VStr("0 reviews"))
  {
    Listing(
      title := Get(item, "title", Get(item, "name", VStr("Unknown product"))),
      price := price,
      link := Get(item, "url", Get(item, "link", VStr("#"))),
      site := "Amazon",
      rating := Get(item, "rating", VStr("No rating")),
      reviews := Get(item, "reviews", VStr("0 reviews")),
      profit := None,
      profitMargin := None,
      recommend := None)
  }

  /** The listing one item yields, if any. */
  function NormalizeItem(item: RawItem): (r: Option<Listing>)
    ensures r.Some? <==>
            FirstUsable(item, PriceFields) < |PriceFields|
            && PriceOf(item[PriceFields[FirstUsable(item, PriceFields)]]).Some?
    ensures r.Some? ==>
            r.value == ListingFor(item, PriceOf(item[PriceFields[FirstUsable(item, PriceFields)]]).value)
  {
    var i := FirstUsable(item, PriceFields);
    if i == |PriceFields| then None
    else match PriceOf(item[PriceFields[i]])
      case None => None
      case Some(p) => Some(ListingFor(item, p))
  }

  /** The listings a sequence of items yields, in item order. */
  function NormalizeAll(items: seq<RawItem>): (r: seq<Listing>)
    ensures |r| <= |items|
    ensures forall j :: 0 <= j < |r| ==> Fresh(r[j])
  {
    if items == [] then []
    else
      var last := items[|items| - 1];
      NormalizeAll(items[..|items| - 1])
      + match NormalizeItem(last) case None => [] case Some(l) => [l]
  }

  /**
   * The normalisation loop: one pass over the items, appending a listing
   * for each item that yields one.
   */
  method Normalize(items: seq<RawItem>) returns (prices: seq<Listing>)
    ensures prices == NormalizeAll(items)
  {
    prices := [];
    for n := 0 to |items|
      invariant prices == NormalizeAll(items[..n])
    {
      var item := items[n];
      var field := SelectPriceField(item);
      if field.Some? {
        var price := PriceOf(item[field.value]);
        if price.Some? {
          prices := prices + [ListingFor(item, price.value)];
        }
      }
      assert items[..n + 1][..n] == items[..n];
    }
    assert items[..|items|] == items;
  }

  /**
   * Skipping an item does not disturb the others: the listings of a
   * concatenation are the listings of each part, in order.
   */
  lemma {:induction false} NormalizeAllAppend(a: seq<RawItem>, b: seq<RawItem>)
    ensures NormalizeAll(a + b) == NormalizeAll(a) + NormalizeAll(b)
    decreases |b|
  {
    if b == [] {
      assert a + b == a;
    } else {
      var b' := b[..|b| - 1];
      assert (a + b)[..|a + b| - 1] == a + b';
      assert (a + b)[|a + b| - 1] == b[|b| - 1];
      NormalizeAllAppend(a, b');
    }
  }

  /** One item contributes its own listing, or nothing. */
  lemma SingleItem(item: RawItem)
    ensures NormalizeAll([item]) == match NormalizeItem(item) case None => [] case Some(l) => [l]
  {
    assert [item][..0] == [];
  }

  /**
   * Every listing comes from an item, in item order: listing j is the
   * listing of item origin[j], and the origins increase.
   */
  lemma {:induction false} NormalizeAllOrigins(items: seq<RawItem>) returns (origin: seq<nat>)
    ensures |origin| == |NormalizeAll(items)|
    ensures forall j :: 0 <= j < |origin| ==> origin[j] < |items| && NormalizeItem(items[origin[j]]) == Some(NormalizeAll(items)[j])
    ensures forall j, j' :: 0 <= j < j' < |origin| ==> origin[j] < origin[j']
  {
    if items == [] {
      origin := [];
    } else {
      var init := items[..|items| - 1];
      var before := NormalizeAllOrigins(init);
      var kept := NormalizeAll(init);
      match NormalizeItem(items[|items| - 1])
      case None =>
        assert NormalizeAll(items) == kept;
        origin := before;
        forall j | 0 <= j < |origin|
          ensures origin[j] < |items| && NormalizeItem(items[origin[j]]) == Some(kept[j])
        {
          assert items[before[j]] == init[before[j]];
        }
      case Some(l) =>
        assert NormalizeAll(items) == kept + [l];
        origin := before + [|items| - 1];
        forall j | 0 <= j < |origin|
          ensures origin[j] < |items| && NormalizeItem(items[origin[j]]) == Some((kept + [l])[j])
        {
          if j < |before| {
            assert origin[j] == before[j] && items[before[j]] == init[before[j]];
          }
        }
    }
  }

  /**
   * The listing of an item: its price is read from the first usable price
   * field only, and the display fields fall back to their alternates or
   * placeholders only when their key is absent.
   */
  lemma NormalizeItemFields(item: RawItem)
    requires NormalizeItem(item).Some?
    ensures var i := FirstUsable(item, PriceFields);
            i < |PriceFields| && PriceOf(item[PriceFields[i]]) == Some(NormalizeItem(item).value.price)
    ensures var l := NormalizeItem(item).value;
            && Fresh(l)
            && l.title == (if "title" in item then item["title"]
                           else if "name" in item then item["name"] else VStr("Unknown product"))
            && l.link == (if "url" in item then item["url"]
                          else if "link" in item then item["link"] else VStr("#"))
            && l.rating == (if "rating" in item then item["rating"] else VStr("No rating"))
            && l.reviews == (if "reviews" in item then item["reviews"] else VStr("0 reviews"))
  {
  }

  /** When the chosen field does not parse, a later usable field is not tried. */
  lemma NoFallbackAfterBadPrice(item: RawItem)
    requires item == map["price" := VStr("N/A"), "cost" := VNum(5.0)]
    ensures NormalizeItem(item) == None
  {
    assert Usable(item, PriceFields[0]);
    PriceText.NoDigitNoPrice("N/A");
  }

  /** A numeric price is used unchanged. */
  lemma NumericPriceKept(item: RawItem, x: real)
    requires FirstUsable(item, PriceFields) < |PriceFields|
    requires item[PriceFields[FirstUsable(item, PriceFields)]] == VNum(x)
    ensures NormalizeItem(item).Some? && NormalizeItem(item).value.price == x
  {
  }

  /** A price value that is neither a number nor a string yields no listing. */
  lemma OtherValueSkipped(item: RawItem)
    requires FirstUsable(item, PriceFields) < |PriceFields|
    requires item[PriceFields[FirstUsable(item, PriceFields)]] == VOther
    ensures NormalizeItem(item) == None
  {
  }

  /** The keys of the example item below, and those it lacks. */
  lemma WidgetKeys(item: RawItem, text: string)
    requires item == map["price" := VStr(text), "title" := VStr("Widget")]
    ensures item["price"] == VStr(text) && item["title"] == VStr("Widget")
    ensures "name" !in item && "url" !in item && "link" !in item
    ensures "rating" !in item && "reviews" !in item
  {
    assert "name" !in item;
    assert "url" !in item;
    assert "link" !in item;
    assert "rating" !in item;
    assert "reviews" !in item;
  }

  /** An item such as {"price": "$49.99", "title": "Widget"} becomes a Widget listing at 49.99. */
  lemma WidgetExample(item: RawItem, text: string)
    requires text == "$49.99" && item == map["price" := VStr(text), "title" := VStr("Widget")]
    ensures NormalizeItem(item) == Some(Listing(VStr("Widget"), 49.99, VStr("#"), "Amazon",
                                                VStr("No rating"), VStr("0 reviews"), None, None, None))
  {
    WidgetKeys(item, text);
    assert Usable(item, PriceFields[0]);
    assert FirstUsable(item, PriceFields) == 0;
    PriceText.ReadsDollarExample(text);
    assert NormalizeItem(item) == Some(ListingFor(item, 49.99));
  }

}

=== FILE: poller.dfy ===
/**
 * The bounded run-status poller of `scrape_prices`: at most ten status
 * checks, stopping early on a terminal status, and a final budget test that
 * turns exhaustion into a timeout.
 */
module Poller {
  import opened Remote

  /** The attempt budget (`max_attempts`). */
  const MaxAttempts: nat := 10

  /** The statuses on which the run is reported as failed at once. */
  const FailureStatuses: seq<string> := ["FAILED", "ABORTED", "TIMED-OUT"]

  predicate Succeeded(s: Status) {
    s == Reported("SUCCEEDED")
  }

  predicate RunFailedStatus(s: Status) {
    s.Reported? && s.name in FailureStatuses
  }

  /** A reply after which the poller sleeps and checks again. */
  predicate Pending(reply: Reply<Status>) {
    reply.Answer? && !Succeeded(reply.value) && !RunFailedStatus(reply.value)
  }

  /** How polling ends. */
  datatype PollOutcome =
    | Items(items: seq<RawItem>)  // the run succeeded and its dataset was fetched
    | RunFailed(status: string)   // a terminal failure status was reported
    | TimedOut                    // the attempt budget was used up
    | RequestFailed               // a status or dataset request raised

  /**
   * The index of the first reply in statuses[k..MaxAttempts] that is not
   * pending, or MaxAttempts when every one of them is pending.
   */
  function SettleFrom(statuses: seq<Reply<Status>>, k: nat): (r: nat)
    requires |statuses| >= MaxAttempts && k <= MaxAttempts
    ensures k <= r <= MaxAttempts
    ensures forall j :: k <= j < r ==> Pending(statuses[j])
    ensures r < MaxAttempts ==> !Pending(statuses[r])
    decreases MaxAttempts - k
  {
    if k == MaxAttempts || !Pending(statuses[k]) then k else SettleFrom(statuses, k + 1)
  }

  /**
   * What polling yields and how many status checks it makes, given the reply
   * to every status check it may make and the reply to the dataset request.
   * The poller stops at the first reply that is not pending. On SUCCEEDED
   * the dataset is fetched first, and only then is the budget tested, so a
   * success on the last allowed check is still reported as a timeout.
   */
  function PollOf(statuses: seq<Reply<Status>>, dataset: Reply<seq<RawItem>>): (r: (PollOutcome, nat))
    requires |statuses| >= MaxAttempts
    ensures 1 <= r.1 <= MaxAttempts
    ensures forall j :: 0 <= j < r.1 - 1 ==> Pending(statuses[j])
    ensures r.0.Items? ==> r.1 < MaxAttempts && statuses[r.1 - 1] == Answer(Reported("SUCCEEDED"))
    ensures r.0.RunFailed? ==> statuses[r.1 - 1] == Answer(Reported(r.0.status)) && r.0.status in FailureStatuses
  {
    var k := SettleFrom(statuses, 0);
    if k == MaxAttempts then (TimedOut, MaxAttempts)
    else match statuses[k]
      case RequestFailure => (RequestFailed, k + 1)
      case Answer(s) =>
        if RunFailedStatus(s) then (RunFailed(s.name), k + 1)
        else match dataset
          case RequestFailure => (RequestFailed, k + 1)
          case Answer(items) =>
            if k + 1 >= MaxAttempts then (TimedOut, k + 1) else (Items(items), k + 1)
  }

  /**
   * The polling loop. `statuses[i]` is the reply to the (i+1)-th status
   * request and `dataset` the reply to the dataset request made once the
   * run has succeeded; the five-second sleep after a pending reply has no
   * observable effect here.
   */
  method Poll(statuses: seq<Reply<Status>>, dataset: Reply<seq<RawItem>>) returns (outcome: PollOutcome, checks: nat)
    requires |statuses| >= MaxAttempts
    ensures (outcome, checks) == PollOf(statuses, dataset)
  {
    var attempts := 0;
    var items: seq<RawItem> := [];
    while attempts < MaxAttempts
      invariant attempts <= MaxAttempts
      invariant forall j :: 0 <= j < attempts ==> Pending(statuses[j])
    {
      attempts := attempts + 1;
      var reply := statuses[attempts - 1];
      if reply.RequestFailure? {
        SettlesAt(statuses, 0, attempts - 1);
        return RequestFailed, attempts;
      }
      var status := reply.value;
      if Succeeded(status) {
        SettlesAt(statuses, 0, attempts - 1);
        if dataset.RequestFailure? {
          return RequestFailed, attempts;
        }
        items := dataset.value;
        break;
      } else if RunFailedStatus(status) {
        SettlesAt(statuses, 0, attempts - 1);
        return RunFailed(status.name), attempts;
      }
    }
    if attempts >= MaxAttempts {
      return TimedOut, attempts;
    }
    return Items(items), attempts;
  }

  /** When every reply before index k is pending, polling settles at k. */
  lemma {:induction false} SettlesAt(statuses: seq<Reply<Status>>, i: nat, k: nat)
    requires |statuses| >= MaxAttempts && i <= k <= MaxAttempts
    requires forall j :: i <= j < k ==> Pending(statuses[j])
    requires k < MaxAttempts ==> !Pending(statuses[k])
    ensures SettleFrom(statuses, i) == k
    decreases k - i
  {
    if i < k {
      SettlesAt(statuses, i + 1, k);
    }
  }

  /** Fail-fast: a failure status after only pending replies ends polling at that check. */
  lemma FailureStopsPolling(statuses: seq<Reply<Status>>, dataset: Reply<seq<RawItem>>, k: nat)
    requires |statuses| >= MaxAttempts && k < MaxAttempts
    requires forall j :: 0 <= j < k ==> Pending(statuses[j])
    requires statuses[k].Answer? && RunFailedStatus(statuses[k].value)
    ensures PollOf(statuses, dataset) == (RunFailed(statuses[k].value.name), k + 1)
  {
    SettlesAt(statuses, 0, k);
  }

  /** Pending replies lead to another check while the budget lasts. */
  lemma PendingMeansAnotherCheck(statuses: seq<Reply<Status>>, dataset: Reply<seq<RawItem>>, k: nat)
    requires |statuses| >= MaxAttempts && k < MaxAttempts
    requires forall j :: 0 <= j <= k ==> Pending(statuses[j])
    ensures PollOf(statuses, dataset).1 > k + 1 || PollOf(statuses, dataset) == (TimedOut, MaxAttempts)
  {
  }

  /** A success before the last allowed check yields the dataset items. */
  lemma SuccessWithinBudget(statuses: seq<Reply<Status>>, items: seq<RawItem>, k: nat)
    requires |statuses| >= MaxAttempts && k < MaxAttempts - 1
    requires forall j :: 0 <= j < k ==> Pending(statuses[j])
    requires statuses[k] == Answer(Reported("SUCCEEDED"))
    ensures PollOf(statuses, Answer(items)) == (Items(items), k + 1)
  {
    SettlesAt(statuses, 0, k);
  }

  /** A success on exactly the tenth check is reported as a timeout. */
  lemma SuccessOnLastCheckTimesOut(statuses: seq<Reply<Status>>, items: seq<RawItem>)
    requires |statuses| >= MaxAttempts
    requires forall j :: 0 <= j < MaxAttempts - 1 ==> Pending(statuses[j])
    requires statuses[MaxAttempts - 1] == Answer(Reported("SUCCEEDED"))
    ensures PollOf(statuses, Answer(items)) == (TimedOut, MaxAttempts)
  {
    SettlesAt(statuses, 0, MaxAttempts - 1);
  }

  /** Ten pending replies exhaust the budget after exactly ten checks. */
  lemma AllPendingTimesOut(statuses: seq<Reply<Status>>, dataset: Reply<seq<RawItem>>)
    requires |statuses| >= MaxAttempts
    requires forall j :: 0 <= j < MaxAttempts ==> Pending(statuses[j])
    ensures PollOf(statuses, dataset) == (TimedOut, MaxAttempts)
  {
    SettlesAt(statuses, 0, MaxAttempts);
  }

  /**
   * No further checks: the outcome depends only on the replies to the
   * checks actually made, so replies after them can be anything.
   */
  lemma PollReadsOnlyItsChecks(statuses: seq<Reply<Status>>, others: seq<Reply<Status>>, dataset: Reply<seq<RawItem>>)
    requires |statuses| >= MaxAttempts && |others| >= MaxAttempts
    requires others[..PollOf(statuses, dataset).1] == statuses[..PollOf(statuses, dataset).1]
    ensures PollOf(others, dataset) == PollOf(statuses, dataset)
  {
    var checks := PollOf(statuses, dataset).1;
    var k := SettleFrom(statuses, 0);
    forall j | 0 <= j < checks
      ensures others[j] == statuses[j]
    {
      assert others[..checks][j] == statuses[..checks][j];
    }
    SettlesAt(others, 0, k);
  }

  /** Scenario: PENDING, RUNNING, SUCCEEDED yields the items after three checks. */
  lemma PendingRunningSucceeded(statuses: seq<Reply<Status>>, items: seq<RawItem>)
    requires |statuses| >= MaxAttempts
    requires statuses[..3] == [Answer(Reported("PENDING")), Answer(Reported("RUNNING")), Answer(Reported("SUCCEEDED"))]
    ensures PollOf(statuses, Answer(items)) == (Items(items), 3)
  {
    assert statuses[0] == statuses[..3][0] && statuses[1] == statuses[..3][1] && statuses[2] == statuses[..3][2];
    SuccessWithinBudget(statuses, items, 2);
  }

  /** Scenario: FAILED on the first check fails at once, after one check. */
  lemma FailedAtFirstCheck(statuses: seq<Reply<Status>>, dataset: Reply<seq<RawItem>>)
    requires |statuses| >= MaxAttempts && statuses[0] == Answer(Reported("FAILED"))
    ensures PollOf(statuses, dataset) == (RunFailed("FAILED"), 1)
  {
    FailureStopsPolling(statuses, dataset, 0);
  }
}

=== FILE: price_text.dfy ===
/**
 * Turning a textual price into a number: the cleaning expression of
 * `scrape_prices` (drop every currency mark and thousands separator, then
 * strip surrounding whitespace) and the decimal subset of Python's `float()`.
 */
module PriceText {
  import opened Wrappers

  /** The characters Python's `str.isspace` accepts. */
  predicate IsSpace(c: char) {
    || c == ' '
    || ('\t' <= c <= '\r')
    || ('\U{1C}' <= c <= '\U{1F}')
    || c == '\U{85}' || c == '\U{A0}' || c == '\U{1680}'
    || ('\U{2000}' <= c <= '\U{200A}')
    || c == '\U{2028}' || c == '\U{2029}' || c == '\U{202F}' || c == '\U{205F}' || c == '\U{3000}'
  }

  /** Python's `s.replace(c, "")`: every occurrence of c removed, the rest kept in order. */
  function Without(s: string, c: char): (r: string)
    ensures |r| <= |s|
    ensures c !in r
    ensures forall d :: d in r ==> d in s
    ensures forall d :: d != c ==> multiset(r)[d] == multiset(s)[d]
    ensures c !in s ==> r == s
  {
    if s == [] then []
    else
      assert s == [s[0]] + s[1..];
      (if s[0] == c then [] else [s[0]]) + Without(s[1..], c)
  }

  /** Removal works piecewise, so the kept characters stay in their order. */
  lemma {:induction false} WithoutConcat(a: string, b: string, c: char)
    ensures Without(a + b, c) == Without(a, c) + Without(b, c)
  {
    if a == [] {
      assert a + b == b;
    } else {
      assert (a + b)[0] == a[0] && (a + b)[1..] == a[1..] + b;
      WithoutConcat(a[1..], b, c);
    }
  }

  /** The index of the first non-whitespace character of s at or after i, or |s|. */
  function SkipSpaces(s: string, i: nat): (r: nat)
    requires i <= |s|
    ensures i <= r <= |s|
    ensures forall k :: i <= k < r ==> IsSpace(s[k])
    ensures r < |s| ==> !IsSpace(s[r])
    decreases |s| - i
  {
    if i == |s| || !IsSpace(s[i]) then i else SkipSpaces(s, i + 1)
  }

  /** The end of s[lo..hi] once whitespace at its end is dropped. */
  function SkipSpacesBack(s: string, lo: nat, hi: nat): (r: nat)
    requires lo <= hi <= |s|
    ensures lo <= r <= hi
    ensures forall k :: r <= k < hi ==> IsSpace(s[k])
    ensures r > lo ==> !IsSpace(s[r - 1])
    decreases hi - lo
  {
    if hi == lo || !IsSpace(s[hi - 1]) then hi else SkipSpacesBack(s, lo, hi - 1)
  }

  /**
   * Python's `strip()`: s without the whitespace at both of its ends. What
   * is dropped is whitespace, and what is kept neither starts nor ends with
   * whitespace.
   */
  function Strip(s: string): (r: string)
    ensures var lo := SkipSpaces(s, 0);
            && lo + |r| <= |s| && r == s[lo..lo + |r|]
            && (forall k :: 0 <= k < lo ==> IsSpace(s[k]))
            && (forall k :: lo + |r| <= k < |s| ==> IsSpace(s[k]))
    ensures r == [] || (!IsSpace(r[0]) && !IsSpace(r[|r| - 1]))
    ensures forall c :: c in r ==> c in s
  {
    var lo := SkipSpaces(s, 0);
    s[lo..SkipSpacesBack(s, lo, |s|)]
  }

  /** `strip()` keeps every character that is not whitespace, as often as it occurs. */
  lemma StripKeepsOthers(s: string)
    ensures forall d :: !IsSpace(d) ==> multiset(Strip(s))[d] == multiset(s)[d]
  {
    var lo := SkipSpaces(s, 0);
    var r := Strip(s);
    var hi := lo + |r|;
    assert s == s[..lo] + r + s[hi..];
    SpacesOnly(s[..lo]);
    SpacesOnly(s[hi..]);
  }

  /** A text of whitespace holds no other character. */
  lemma {:induction false} SpacesOnly(t: string)
    requires forall k :: 0 <= k < |t| ==> IsSpace(t[k])
    ensures forall d :: !IsSpace(d) ==> multiset(t)[d] == 0
  {
    if t != [] {
      assert t == [t[0]] + t[1..];
      SpacesOnly(t[1..]);
    }
  }

  /**
   * Whitespace is none of the characters a price text is made of: no mark,
   * digit, point or sign, so `strip()` never cuts into a number.
   */
  lemma SpaceIsNoPriceChar(c: char)
    ensures IsSpace(c) ==> !IsMark(c) && !IsDigit(c) && c != '.' && c != '+' && c != '-'
  {
  }

  /** The currency marks and the thousands separator the cleaning removes. */
  predicate IsMark(c: char) {
    c == '$' || c == '€' || c == '£' || c == ','
  }

  /** True when s has no currency mark or thousands separator. */
  predicate Clean(s: string) {
    '$' !in s && '€' !in s && '£' !in s && ',' !in s
  }

  /** `Clean` is the absence of every character `IsMark` names, and of nothing else. */
  lemma CleanMeansNoMark(s: string)
    ensures Clean(s) <==> forall k :: 0 <= k < |s| ==> !IsMark(s[k])
  {
    if !Clean(s) {
      var c :| c in s && IsMark(c);
      var k :| 0 <= k < |s| && s[k] == c;
    }
  }

  /** The four `replace` calls of the cleaning expression, in their order. */
  function WithoutMarks(s: string): (r: string)
    ensures Clean(r)
    ensures forall c :: c in r ==> c in s
    ensures forall d :: !IsMark(d) ==> multiset(r)[d] == multiset(s)[d]
    ensures Clean(s) ==> r == s
  {
    var a := Without(s, '$');
    var b := Without(a, '€');
    var c := Without(b, '£');
    Without(c, ',')
  }

  /** The cleaning expression applied to a textual price. */
  function CleanPriceString(s: string): (r: string)
    ensures Clean(r)
    ensures forall c :: c in r ==> c in s
    ensures forall d :: !IsMark(d) && !IsSpace(d) ==> multiset(r)[d] == multiset(s)[d]
    ensures r == [] || (!IsSpace(r[0]) && !IsSpace(r[|r| - 1]))
  {
    StripKeepsOthers(WithoutMarks(s));
    Strip(WithoutMarks(s))
  }

  /**
   * What cleaning keeps, in order: a contiguous piece of the text without
   * its marks...
   */
  lemma {:induction false} CleanedIsPiece(s: string, t: string)
    requires t == WithoutMarks(s)
    ensures var lo := SkipSpaces(t, 0); CleanPriceString(s) == t[lo..SkipSpacesBack(t, lo, |t|)]
  {
  }

  /** ... with only whitespace cut before and after that piece. */
  lemma {:induction false} CleanedCutsOnlySpaces(s: string, t: string)
    requires t == WithoutMarks(s)
    ensures var r, lo := CleanPriceString(s), SkipSpaces(t, 0);
            && lo + |r| <= |t|
            && (forall k :: 0 <= k < lo ==> IsSpace(t[k]))
            && (forall k :: lo + |r| <= k < |t| ==> IsSpace(t[k]))
  {
    assert CleanPriceString(s) == Strip(t);
  }

  lemma StripKeepsStripped(s: string)
    requires s == [] || (!IsSpace(s[0]) && !IsSpace(s[|s| - 1]))
    ensures Strip(s) == s
  {
  }

  /** Cleaning a cleaned string changes nothing. */
  lemma {:induction false} CleanPriceStringIdempotent(s: string)
    ensures CleanPriceString(CleanPriceString(s)) == CleanPriceString(s)
  {
    var t := CleanPriceString(s);
    assert WithoutMarks(t) == t;
    StripKeepsStripped(t);
  }

  predicate IsDigit(c: char) {
    '0' <= c <= '9'
  }

  predicate AllDigits(s: string) {
    forall k :: 0 <= k < |s| ==> IsDigit(s[k])
  }

  function DigitValue(c: char): (d: nat)
    requires IsDigit(c)
    ensures d <= 9
  {
    c as int - '0' as int
  }

  /** The natural number a string of decimal digits denotes. */
  function DigitsValue(s: string): nat
    requires AllDigits(s)
  {
    if s == [] then 0 else DigitsValue(s[..|s| - 1]) * 10 + DigitValue(s[|s| - 1])
  }

  function Pow10(n: nat): (r: nat)
    ensures r >= 1
  {
    if n == 0 then 1 else 10 * Pow10(n - 1)
  }

  /** The index of the first '.' in s, or |s| when there is none. */
  function DotIndex(s: string): (i: nat)
    ensures i <= |s|
    ensures forall k :: 0 <= k < i ==> s[k] != '.'
    ensures i < |s| ==> s[i] == '.'
  {
    if s == [] then 0 else if s[0] == '.' then 0 else 1 + DotIndex(s[1..])
  }

  /** digits, digits "." digits?, or "." digits. */
  function ParseUnsigned(s: string): (r: Option<real>)
    ensures r.Some? ==> r.value >= 0.0
    ensures r.Some? ==> forall k :: 0 <= k < |s| ==> IsDigit(s[k]) || (s[k] == '.' && k == DotIndex(s))
    ensures r.Some? ==> exists k :: 0 <= k < |s| && IsDigit(s[k])
  {
    var d := DotIndex(s);
    if d == |s| then
      if s != [] && AllDigits(s) then Some(DigitsValue(s) as real) else None
    else
      var whole, frac := s[..d], s[d + 1..];
      if |whole| + |frac| > 0 && AllDigits(whole) && AllDigits(frac)
      then Some(DigitsValue(whole) as real + DigitsValue(frac) as real / Pow10(|frac|) as real)
      else None
  }

  /**
   * Python's `float()` on a string already stripped: an optional sign, then
   * decimal digits with at most one '.', at least one digit in all.
   */
  function ParseFloat(s: string): (r: Option<real>)
    ensures r.Some? ==> forall k :: 0 <= k < |s| ==> IsDigit(s[k]) || s[k] == '.' || ((s[k] == '+' || s[k] == '-') && k == 0)
    ensures r.Some? ==> exists k :: 0 <= k < |s| && IsDigit(s[k])
    ensures r.Some? ==> forall k :: 0 <= k < |s| && s[k] == '.' ==> k == DotIndex(s)
  {
    if s != [] && (s[0] == '+' || s[0] == '-') then
      match ParseUnsigned(s[1..])
      case None => None
      case Some(v) => Some(if s[0] == '-' then -v else v)
    else ParseUnsigned(s)
  }

  /** The digit character for d. */
  function DigitChar(d: nat): (c: char)
    requires d <= 9
    ensures IsDigit(c) && DigitValue(c) == d
  {
    ('0' as int + d) as char
  }

  /** The decimal text of n, without leading zeros. */
  function NatText(n: nat): (s: string)
    ensures s != [] && AllDigits(s)
  {
    if n < 10 then [DigitChar(n)] else NatText(n / 10) + [DigitChar(n % 10)]
  }

  /** A price of `cents` hundredths written with two decimals, as in "1299.99". */
  function CentsText(cents: nat): string {
    NatText(cents / 100) + "." + [DigitChar(cents % 100 / 10), DigitChar(cents % 10)]
  }

  lemma {:induction false} NatTextValue(n: nat)
    ensures DigitsValue(NatText(n)) == n
  {
    var s := NatText(n);
    if n >= 10 {
      NatTextValue(n / 10);
      assert s[..|s| - 1] == NatText(n / 10);
    }
  }

  /** Parsing the decimal text of a natural number gives that number back. */
  lemma {:induction false} ParseNatText(n: nat)
    ensures ParseFloat(NatText(n)) == Some(n as real)
  {
    var s := NatText(n);
    NatTextValue(n);
    assert s[0] != '+' && s[0] != '-' && IsDigit(s[0]);
    assert AllDigits(s);
  }

  /** Digits, a point and digits read as the whole part plus the scaled fraction. */
  lemma {:induction false} ParseDecimalText(whole: string, frac: string)
    requires whole != [] && AllDigits(whole) && AllDigits(frac)
    ensures ParseFloat(whole + "." + frac)
            == Some(DigitsValue(whole) as real + DigitsValue(frac) as real / Pow10(|frac|) as real)
  {
    var s := whole + "." + frac;
    assert s[|whole|] == '.';
    assert forall k :: 0 <= k < |whole| ==> s[k] == whole[k] && s[k] != '.';
    assert DotIndex(s) == |whole|;
    assert s[..|whole|] == whole && s[|whole| + 1..] == frac;
    assert s[0] == whole[0];
  }

  lemma TwoDigitsValue(cents: nat)
    ensures DigitsValue([DigitChar(cents % 100 / 10), DigitChar(cents % 10)]) == cents % 100
  {
    var frac := [DigitChar(cents % 100 / 10), DigitChar(cents % 10)];
    assert frac[..1] == [frac[0]] && frac[..1][..0] == [];
    assert DigitsValue(frac[..1]) == DigitValue(frac[0]);
  }

  /** Parsing a two-decimal price text gives that price back. */
  lemma {:induction false} ParseCentsText(cents: nat)
    ensures ParseFloat(CentsText(cents)) == Some(cents as real / 100.0)
  {
    var whole := NatText(cents / 100);
    var frac := [DigitChar(cents % 100 / 10), DigitChar(cents % 10)];
    assert CentsText(cents) == whole + "." + frac;
    ParseDecimalText(whole, frac);
    NatTextValue(cents / 100);
    TwoDigitsValue(cents);
    assert |frac| == 2 && Pow10(|frac|) == 100;
    CentsSplit(DigitsValue(whole), DigitsValue(frac), Pow10(|frac|), cents);
  }

  lemma CentsSplit(w: nat, f: nat, p: nat, cents: nat)
    requires w == cents / 100 && f == cents % 100 && p == 100
    ensures w as real + f as real / p as real == cents as real / 100.0
  {
    assert cents == cents / 100 * 100 + cents % 100;
  }

  /** A leading '-' negates what the rest of the text denotes. */
  lemma NegativeText(s: string, v: real)
    requires s == [] || (s[0] != '+' && s[0] != '-')
    requires ParseFloat(s) == Some(v)
    ensures ParseFloat("-" + s) == Some(-v)
  {
    assert ("-" + s)[1..] == s;
  }

  /** Removing the only occurrence of c from p + [c] + q leaves p + q. */
  lemma WithoutSingle(p: string, c: char, q: string)
    requires c !in p && c !in q
    ensures Without(p + [c] + q, c) == p + q
  {
    assert [c][1..] == [];
    assert Without([c], c) == [];
    WithoutConcat(p, [c], c);
    assert Without(p + [c], c) == p;
    WithoutConcat(p + [c], q, c);
  }

  /** A text without any digit, such as "N/A", yields no price. */
  lemma NoDigitNoPrice(s: string)
    requires forall k :: 0 <= k < |s| ==> !IsDigit(s[k])
    ensures ParseFloat(CleanPriceString(s)) == None
  {
    var r := CleanPriceString(s);
    forall k | 0 <= k < |r|
      ensures !IsDigit(r[k])
    {
      assert r[k] in s;
    }
  }

  /** A number text without whitespace at its ends is left alone by `strip()`. */
  lemma StripKeepsNumberText(s: string)
    requires s != [] && forall k :: 0 <= k < |s| ==> IsDigit(s[k]) || s[k] == '.'
    ensures Strip(s) == s
  {
    assert !IsSpace(s[0]) && !IsSpace(s[|s| - 1]);
    StripKeepsStripped(s);
  }

  /** The four removals turn "$" + a + "," + b into a + b when a and b hold no marks. */
  lemma MarksDropped(a: string, b: string)
    requires Clean(a) && Clean(b)
    ensures WithoutMarks(['$'] + a + [','] + b) == a + b
  {
    var s := ['$'] + a + [','] + b;
    var t := a + [','] + b;
    assert s == [] + ['$'] + t;
    WithoutSingle([], '$', t);
    var s1 := Without(s, '$');
    assert s1 == t;
    assert '€' !in t && '£' !in t;
    var s2 := Without(s1, '€');
    assert s2 == t;
    var s3 := Without(s2, '£');
    assert s3 == t;
    WithoutSingle(a, ',', b);
    var s4 := Without(s3, ',');
    assert s4 == a + b;
  }

  /** A leading '$' and a thousands separator are dropped from a price text. */
  lemma DropsSignAndSeparator(a: string, b: string)
    requires a != [] && AllDigits(a)
    requires forall k :: 0 <= k < |b| ==> IsDigit(b[k]) || b[k] == '.'
    ensures CleanPriceString(['$'] + a + [','] + b) == a + b
  {
    MarksDropped(a, b);
    StripKeepsNumberText(a + b);
  }

  /** A two-decimal price text is made of digits and one point. */
  lemma CentsTextChars(cents: nat)
    ensures forall k :: 0 <= k < |CentsText(cents)| ==> IsDigit(CentsText(cents)[k]) || CentsText(cents)[k] == '.'
  {
    var whole := NatText(cents / 100);
    var frac := [DigitChar(cents % 100 / 10), DigitChar(cents % 10)];
    assert CentsText(cents) == whole + "." + frac;
  }

  /** A dollar price with two decimals, such as "$49.99", reads as that amount. */
  lemma {:induction false} DollarCents(cents: nat)
    ensures ParseFloat(CleanPriceString(['$'] + CentsText(cents))) == Some(cents as real / 100.0)
  {
    var t := CentsText(cents);
    var s := ['$'] + t;
    CentsTextChars(cents);
    assert s == [] + ['$'] + t;
    WithoutSingle([], '$', t);
    var s1 := Without(s, '$');
    assert s1 == t;
    assert forall k :: 0 <= k < |t| ==> t[k] != '€' && t[k] != '£' && t[k] != ',';
    assert WithoutMarks(s) == t;
    StripKeepsNumberText(t);
    ParseCentsText(cents);
  }

  /** "$49.99" reads as 49.99. */
  lemma ReadsDollarExample(text: string)
    requires text == "$49.99"
    ensures ParseFloat(CleanPriceString(text)) == Some(49.99)
  {
    assert NatText(49) == "49";
    assert text == ['$'] + CentsText(4999);
    DollarCents(4999);
  }

  /** "1299.99" reads as 1299.99. */
  lemma ReadsDecimalExample()
    ensures ParseFloat("1299.99") == Some(1299.99)
  {
    assert NatText(1) == "1";
    assert NatText(12) == "12";
    assert NatText(129) == "129";
    assert NatText(1299) == "1299";
    assert CentsText(129999) == "1299.99";
    ParseCentsText(129999);
  }

  /** "$1,299.99" cleans to "1299.99", so it is read as 1299.99. */
  lemma CleansDollarExample(s: string)
    requires s == "$1,299.99"
    ensures CleanPriceString(s) == "1299.99"
    ensures ParseFloat(CleanPriceString(s)) == Some(1299.99)
  {
    var a, b := s[1..2], s[3..];
    assert s == ['$'] + a + [','] + b;
    assert a + b == "1299.99";
    DropsSignAndSeparator(a, b);
    ReadsDecimalExample();
  }
}

=== FILE: profits.dfy ===
/**
 * The profit calculator of `scrape_prices`: the base price is the first
 * minimum price, and each listing, in place, gets its profit, its profit
 * margin and a recommendation flag. A listing priced at zero makes the
 * margin division raise, and that exception escapes `scrape_prices`.
 */
module Profits {
  import opened Wrappers
  import opened Normalizer

  /**
   * `round(x, 2)` on exact reals: the nearest multiple of 0.01, ties to the
   * even multiple. It moves x by at most half a cent and keeps its sign.
   */
  function Round2(x: real): (r: real)
    ensures -0.005 <= r - x <= 0.005
    ensures x <= 0.0 ==> r <= 0.0
    ensures x >= 0.0 ==> r >= 0.0
  {
    var y := x * 100.0;
    var f := y.Floor;
    var d := y - f as real;
    var n := if d < 0.5 then f else if d > 0.5 then f + 1 else if f % 2 == 0 then f else f + 1;
    n as real / 100.0
  }

  /**
   * The index `min(prices, key=price)` picks: a cheapest listing, and the
   * first of them when several share the lowest price.
   */
  function CheapestIndex(ls: seq<Listing>): (k: nat)
    requires |ls| > 0
    ensures k < |ls|
    ensures forall i :: 0 <= i < |ls| ==> ls[k].price <= ls[i].price
    ensures forall i :: 0 <= i < k ==> ls[i].price > ls[k].price
  {
    if |ls| == 1 then 0
    else
      var j := CheapestIndex(ls[..|ls| - 1]);
      if ls[|ls| - 1].price < ls[j].price then |ls| - 1 else j
  }

  /** The base price: the lowest price, which some listing has. */
  function BasePrice(ls: seq<Listing>): (b: real)
    requires |ls| > 0
    ensures forall i :: 0 <= i < |ls| ==> b <= ls[i].price
    ensures exists i :: 0 <= i < |ls| && ls[i].price == b
  {
    ls[CheapestIndex(ls)].price
  }

  predicate NoZeroPrice(ls: seq<Listing>) {
    forall i :: 0 <= i < |ls| ==> ls[i].price != 0.0
  }

  /** The index of the first listing priced at zero, or |ls| when there is none. */
  function ZeroAt(ls: seq<Listing>): (k: nat)
    ensures k <= |ls|
    ensures forall i :: 0 <= i < k ==> ls[i].price != 0.0
    ensures k < |ls| ==> ls[k].price == 0.0
  {
    if ls == [] then 0 else if ls[0].price == 0.0 then 0 else 1 + ZeroAt(ls[1..])
  }

  /** Line 167: the `profit` key, the base price less the listing's price, rounded to cents. */
  function AddProfit(l: Listing, basePrice: real): Listing {
    l.(profit := Some(Round2(basePrice - l.price)))
  }

  /**
   * Lines 168-169: the `profit_margin` key, the profit as a percentage of
   * the listing's price rounded to cents, and the `recommend` key, whether
   * that margin reaches 20.
   */
  function AddMargin(l: Listing, basePrice: real): Listing
    requires l.price != 0.0
  {
    var margin := Round2((basePrice - l.price) / l.price * 100.0);
    l.(profitMargin := Some(margin), recommend := Some(margin >= 20.0))
  }

  /** A listing with the three profit keys added, in the order they are written. */
  function WithMetrics(l: Listing, basePrice: real): Listing
    requires l.price != 0.0
  {
    AddMargin(AddProfit(l, basePrice), basePrice)
  }

  /** Every listing with its profit keys added. */
  function WithProfits(ls: seq<Listing>, basePrice: real): (r: seq<Listing>)
    requires NoZeroPrice(ls)
    ensures |r| == |ls|
  {
    seq(|ls|, i requires 0 <= i < |ls| => WithMetrics(ls[i], basePrice))
  }

  /**
   * The keys one listing gets: its display fields and price are kept, the
   * profit and margin are within half a cent of base - price and
   * (base - price) / price * 100, and recommend holds exactly when the
   * rounded margin is at least 20.
   */
  lemma ListingMetrics(l: Listing, basePrice: real)
    requires l.price != 0.0
    ensures var r := WithMetrics(l, basePrice);
            && r.profit.Some? && r.profitMargin.Some? && r.recommend.Some?
            && r == l.(profit := r.profit, profitMargin := r.profitMargin, recommend := r.recommend)
            && -0.005 <= r.profit.value - (basePrice - l.price) <= 0.005
            && -0.005 <= r.profitMargin.value - (basePrice - l.price) / l.price * 100.0 <= 0.005
            && (r.recommend.value <==> r.profitMargin.value >= 20.0)
  {
  }

  /** The profit step keeps every listing's display fields and price and adds the three keys. */
  lemma {:induction false} DisplayFieldsKept(ls: seq<Listing>, basePrice: real)
    requires NoZeroPrice(ls)
    ensures forall i :: 0 <= i < |ls| ==>
              var r := WithProfits(ls, basePrice)[i];
              && r.profit.Some? && r.profitMargin.Some? && r.recommend.Some?
              && r == ls[i].(profit := r.profit, profitMargin := r.profitMargin, recommend := r.recommend)
  {
  }

  /**
   * The profit step: the base price, then the profit loop over the
   * listings, updated in place.
   */
  method ComputeProfits(a: array<Listing>) returns (basePrice: real, crashed: bool)
    requires a.Length > 0
    modifies a
    ensures basePrice == BasePrice(old(a[..]))
    ensures crashed <==> !NoZeroPrice(old(a[..]))
    ensures var k := ZeroAt(old(a[..]));
            && a[..k] == WithProfits(old(a[..])[..k], basePrice)
            && (k < a.Length ==>
                  a[k] == AddProfit(old(a[..])[k], basePrice) && a[k + 1..] == old(a[..])[k + 1..])
  {
    basePrice := BasePrice(a[..]);
    crashed := AddProfits(a, basePrice);
  }

  /**
   * The loop of lines 166-169. `crashed` reports the division by a zero
   * price. By then the listings before that one carry all three keys, that
   * one carries `profit` only, and the rest are untouched.
   */
  method AddProfits(a: array<Listing>, basePrice: real) returns (crashed: bool)
    modifies a
    ensures crashed <==> !NoZeroPrice(old(a[..]))
    ensures var k := ZeroAt(old(a[..]));
            && a[..k] == WithProfits(old(a[..])[..k], basePrice)
            && (k < a.Length ==>
                  a[k] == AddProfit(old(a[..])[k], basePrice) && a[k + 1..] == old(a[..])[k + 1..])
  {
    ghost var orig := a[..];
    crashed := false;
    var i := 0;
    while i < a.Length
      invariant 0 <= i <= a.Length && i <= ZeroAt(orig)
      invariant forall j :: 0 <= j < i ==> a[j] == WithMetrics(orig[j], basePrice)
      invariant forall j :: i <= j < a.Length ==> a[j] == orig[j]
      invariant !crashed
    {
      var l := AddProfit(a[i], basePrice);
      if l.price == 0.0 {
        a[i] := l;
        crashed := true;
        break;
      }
      a[i] := AddMargin(l, basePrice);
      i := i + 1;
    }
    LoopResult(a[..], orig, i, basePrice);
  }

  /**
   * The state the loop of ComputeProfits leaves, stated pointwise, as the
   * sequence equalities of its postcondition.
   */
  lemma {:induction false} LoopResult(now: seq<Listing>, orig: seq<Listing>, i: nat, basePrice: real)
    requires |now| == |orig| && i <= ZeroAt(orig) && (i < |orig| ==> orig[i].price == 0.0)
    requires forall j :: 0 <= j < i ==> now[j] == WithMetrics(orig[j], basePrice)
    requires i < |now| ==> now[i] == AddProfit(orig[i], basePrice)
    requires forall j :: i < j < |now| ==> now[j] == orig[j]
    ensures i == ZeroAt(orig)
    ensures now[..i] == WithProfits(orig[..i], basePrice)
    ensures i < |now| ==> now[i + 1..] == orig[i + 1..]
  {
    assert forall j :: 0 <= j < i ==> WithProfits(orig[..i], basePrice)[j] == WithMetrics(orig[j], basePrice);
  }

  /** No listing shows a positive profit, since the base price is the lowest price. */
  lemma {:induction false} ProfitsNotPositive(ls: seq<Listing>)
    requires |ls| > 0 && NoZeroPrice(ls)
    ensures forall i :: 0 <= i < |ls| ==> WithProfits(ls, BasePrice(ls))[i].profit.value <= 0.0
  {
    forall i | 0 <= i < |ls|
      ensures WithProfits(ls, BasePrice(ls))[i].profit.value <= 0.0
    {
      assert WithProfits(ls, BasePrice(ls))[i] == WithMetrics(ls[i], BasePrice(ls));
      assert BasePrice(ls) - ls[i].price <= 0.0;
    }
  }

  /** The cheapest listing breaks even: profit 0, margin 0, not recommended. */
  lemma {:induction false} CheapestBreaksEven(ls: seq<Listing>)
    requires |ls| > 0 && NoZeroPrice(ls)
    ensures var l := WithProfits(ls, BasePrice(ls))[CheapestIndex(ls)];
            l.profit == Some(0.0) && l.profitMargin == Some(0.0) && l.recommend == Some(false)
  {
    var k := CheapestIndex(ls);
    var l := ls[k];
    assert (BasePrice(ls) - l.price) / l.price * 100.0 == 0.0;
    assert WithProfits(ls, BasePrice(ls))[k] == WithMetrics(l, BasePrice(ls));
  }

  lemma MarginNotPositive(base: real, price: real)
    requires 0.0 < price && base <= price
    ensures (base - price) / price * 100.0 <= 0.0
  {
    assert (base - price) / price <= 0.0;
  }

  /** With every price positive, no listing is recommended. */
  lemma {:induction false} NoRecommendationWhenPricesPositive(ls: seq<Listing>)
    requires |ls| > 0
    requires forall i :: 0 <= i < |ls| ==> ls[i].price > 0.0
    ensures NoZeroPrice(ls)
    ensures forall i :: 0 <= i < |ls| ==> WithProfits(ls, BasePrice(ls))[i].recommend == Some(false)
  {
    forall i | 0 <= i < |ls|
      ensures WithProfits(ls, BasePrice(ls))[i].recommend == Some(false)
    {
      MarginNotPositive(BasePrice(ls), ls[i].price);
      assert WithProfits(ls, BasePrice(ls))[i] == WithMetrics(ls[i], BasePrice(ls));
    }
  }

  /** Listings at 10 and 20: base 10, and the second has profit -10, margin -50, no recommendation. */
  lemma {:induction false} TwoListingsExample(ls: seq<Listing>)
    requires |ls| == 2 && ls[0].price == 10.0 && ls[1].price == 20.0
    ensures NoZeroPrice(ls) && BasePrice(ls) == 10.0
    ensures var l := WithProfits(ls, 10.0)[1];
            l.profit == Some(-10.0) && l.profitMargin == Some(-50.0) && l.recommend == Some(false)
  {
    assert Round2(-10.0) == -10.0;
    assert Round2(-50.0) == -50.0;
    assert WithProfits(ls, 10.0)[1] == WithMetrics(ls[1], 10.0);
  }

  /** Prices 10 and 0: the loop stops at the second listing after writing its profit of 10. */
  lemma {:induction false} ZeroPriceExample(ls: seq<Listing>)
    requires |ls| == 2 && ls[0].price == 10.0 && ls[1].price == 0.0
    ensures BasePrice(ls) == 0.0 && ZeroAt(ls) == 1 && !NoZeroPrice(ls)
    ensures AddProfit(ls[1], BasePrice(ls)).profit == Some(0.0)
    ensures AddProfit(ls[0], BasePrice(ls)).profit == Some(-10.0)
  {
    assert Round2(0.0) == 0.0;
    assert Round2(-10.0) == -10.0;
  }
}

=== FILE: remote.dfy ===
/**
 * What the scraping service hands back to `scrape_prices`, once HTTP and
 * JSON decoding are taken out of the picture: the answers to the run
 * submission, to each run-status request and to the dataset request.
 */
module Remote {

  /** A decoded JSON value as it may appear in a field of a dataset item. */
  datatype Value =
    | VNull            // JSON null (Python None)
    | VNum(num: real)  // a JSON number (Python int or float)
    | VBool(b: bool)   // true or false, which Python's bool, a kind of int, turns into 1.0 or 0.0
    | VStr(str: string)
    | VOther           // an array or an object

  /** One dataset item: a JSON object whose keys are not known in advance. */
  type RawItem = map<string, Value>

  /**
   * The answer to one HTTP request: either a decoded body, or a failure that
   * raises a `requests` exception (connection error, an error status reported
   * by `raise_for_status`, or a body that does not decode as JSON).
   */
  datatype Reply<+T> = Answer(value: T) | RequestFailure

  /** The `data.status` field of a run-status answer: absent or null, or a string. */
  datatype Status = Missing | Reported(name: string)
}

=== FILE: scraper.dfy ===
/**
 * `scrape_prices` end to end: submit the actor run, poll its status,
 * normalise the dataset items into listings and add the profit keys. The
 * replies of the remote service are inputs: the reply to the run
 * submission (the run id it carries, if any), the reply to every status
 * check the poller may make, and the reply to the dataset request.
 */
module Scraper {
  import opened Wrappers
  import opened Remote
  import Poller
  import opened Normalizer
  import opened Profits

  /** Why a search produced no listings. */
  datatype ScrapeError =
    | NoRunId           // the submission reply carries no (or an empty) run id
    | RunStopped(status: string)  // the run reported FAILED, ABORTED or TIMED-OUT
    | PollTimeout       // the poller used up its attempts
    | NoPricingData     // no item yielded a price
    | RequestFailed     // a request raised

  /** The dictionary `scrape_prices` returns: `prices`, `base_price` and, on failure, the `error` text. */
  datatype SearchResult = SearchResult(prices: seq<Listing>, basePrice: real, error: Option<string>)

  /** A returned result, or the division by a zero price escaping the function. */
  datatype Outcome = Returned(result: SearchResult) | Crashed

  /** The text of the `error` key; a failed request's text goes on with the exception's message. */
  function ErrorText(e: ScrapeError): string {
    match e
    case NoRunId => "No run ID found in the Apify response"
    case RunStopped(s) => "Apify run failed with status " + s
    case PollTimeout => "Timed out waiting for Apify results"
    case NoPricingData => "No pricing data found for this product"
    case RequestFailed => "API request failed: "
  }

  /** Every handled failure has the same shape: its text, no listings and base price 0. */
  function ErrorResult(e: ScrapeError): SearchResult {
    SearchResult([], 0.0, Some(ErrorText(e)))
  }

  /** The outcome for the listings normalisation produced. */
  function Priced(prices: seq<Listing>): (o: Outcome)
    ensures o == Returned(ErrorResult(NoPricingData)) <==> prices == []
    ensures o.Crashed? <==> prices != [] && !NoZeroPrice(prices)
    ensures o.Returned? && o.result.error.None? ==> 0 < |o.result.prices| == |prices|
    ensures prices != [] && NoZeroPrice(prices) ==> o.Returned? && o.result.error.None?
  {
    if prices == [] then Returned(ErrorResult(NoPricingData))
    else if !NoZeroPrice(prices) then Crashed
    else Returned(SearchResult(WithProfits(prices, BasePrice(prices)), BasePrice(prices), None))
  }

  /** What `scrape_prices` yields for the given replies. */
  function Scrape(submission: Reply<Option<string>>, statuses: seq<Reply<Status>>,
                  dataset: Reply<seq<RawItem>>): (o: Outcome)
    requires |statuses| >= Poller.MaxAttempts
    ensures o.Returned? && o.result.error.Some? ==> o.result.prices == [] && o.result.basePrice == 0.0
    ensures o.Returned? && o.result.error.None? ==> o.result.prices != []
    ensures o.Crashed? ==> submission.Answer? && Poller.PollOf(statuses, dataset).0.Items?
    ensures submission.RequestFailure? ==> o == Returned(ErrorResult(RequestFailed))
    ensures submission.Answer? && (submission.value == None || submission.value.value == "") ==>
            o == Returned(ErrorResult(NoRunId))
    ensures o.Crashed? || (o.Returned? && o.result.error.None?) ==>
            submission.Answer? && submission.value.Some? && submission.value.value != ""
  {
    match submission
    case RequestFailure => Returned(ErrorResult(RequestFailed))
    case Answer(runId) =>
      if runId == None || runId.value == "" then Returned(ErrorResult(NoRunId))
      else
        match Poller.PollOf(statuses, dataset).0
        case RequestFailed => Returned(ErrorResult(RequestFailed))
        case RunFailed(s) => Returned(ErrorResult(RunStopped(s)))
        case TimedOut => Returned(ErrorResult(PollTimeout))
        case Items(items) => Priced(NormalizeAll(items))
  }

  method ScrapePrices(submission: Reply<Option<string>>, statuses: seq<Reply<Status>>,
                      dataset: Reply<seq<RawItem>>) returns (outcome: Outcome)
    requires |statuses| >= Poller.MaxAttempts
    ensures outcome == Scrape(submission, statuses, dataset)
  {
    if submission.RequestFailure? {
      return Returned(ErrorResult(RequestFailed));
    }
    var runId := submission.value;
    if runId == None || runId.value == "" {
      return Returned(ErrorResult(NoRunId));
    }
    var polled, _ := Poller.Poll(statuses, dataset);
    match polled
    case RequestFailed =>
      return Returned(ErrorResult(RequestFailed));
    case RunFailed(s) =>
      return Returned(ErrorResult(RunStopped(s)));
    case TimedOut =>
      return Returned(ErrorResult(PollTimeout));
    case Items(items) =>
      var prices := Normalize(items);
      outcome := PriceListings(prices);
  }

  /** The steps after polling: the empty check, then the profit step on a fresh array. */
  method PriceListings(prices: seq<Listing>) returns (outcome: Outcome)
    ensures outcome == Priced(prices)
  {
    if |prices| == 0 {
      return Returned(ErrorResult(NoPricingData));
    }
    var a := new Listing[|prices|](i requires 0 <= i < |prices| => prices[i]);
    assert a[..] == prices;
    var basePrice, crashed := ComputeProfits(a);
    if crashed {
      return Crashed;
    }
    assert a[..] == a[..ZeroAt(prices)];
    return Returned(SearchResult(a[..], basePrice, None));
  }

  /**
   * A result with listings comes from a run that succeeded within the
   * budget, through the pricing of its normalised items.
   */
  lemma ResultFromItems(submission: Reply<Option<string>>, statuses: seq<Reply<Status>>,
                        dataset: Reply<seq<RawItem>>)
    requires |statuses| >= Poller.MaxAttempts
    requires Scrape(submission, statuses, dataset).Returned?
    requires Scrape(submission, statuses, dataset).result.error.None?
    ensures Poller.PollOf(statuses, dataset).0.Items?
    ensures Scrape(submission, statuses, dataset) == Priced(NormalizeAll(Poller.PollOf(statuses, dataset).0.items))
  {
  }

  /**
   * The search returns listings: with a run id, a run that succeeded in
   * time and normalised listings none of which is priced at zero, the
   * result has no error and one listing per normalised item.
   */
  lemma ListingsReturned(submission: Reply<Option<string>>, statuses: seq<Reply<Status>>,
                         dataset: Reply<seq<RawItem>>)
    requires |statuses| >= Poller.MaxAttempts
    requires submission.Answer? && submission.value.Some? && submission.value.value != ""
    requires Poller.PollOf(statuses, dataset).0.Items?
    requires NormalizeAll(Poller.PollOf(statuses, dataset).0.items) != []
    requires NoZeroPrice(NormalizeAll(Poller.PollOf(statuses, dataset).0.items))
    ensures var o := Scrape(submission, statuses, dataset);
            && o.Returned? && o.result.error.None?
            && |o.result.prices| == |NormalizeAll(Poller.PollOf(statuses, dataset).0.items)|
  {
  }

  /**
   * Pricing that succeeds keeps every listing, adds the profit keys to each,
   * takes the base price from one of them and at most each of them, and
   * shows no positive profit.
   */
  lemma PricedListings(prices: seq<Listing>)
    requires Priced(prices).Returned? && Priced(prices).result.error.None?
    ensures var r := Priced(prices).result;
            && |r.prices| == |prices| && prices != []
            && (exists i :: 0 <= i < |r.prices| && r.prices[i].price == r.basePrice)
            && (forall i :: 0 <= i < |r.prices| ==>
                  && r.prices[i].profit.Some? && r.prices[i].profitMargin.Some? && r.prices[i].recommend.Some?
                  && r.prices[i] == prices[i].(profit := r.prices[i].profit, profitMargin := r.prices[i].profitMargin,
                                               recommend := r.prices[i].recommend)
                  && r.basePrice <= r.prices[i].price
                  && r.prices[i].profit.value <= 0.0)
  {
    ProfitsNotPositive(prices);
    DisplayFieldsKept(prices, BasePrice(prices));
    var r := Priced(prices).result;
    assert r.prices[CheapestIndex(prices)].price == r.basePrice;
  }

  /**
   * A successful search: the listings are no more than the dataset items,
   * all on site "Amazon" and all with profit keys; the base price is one of
   * the prices and at most each of them, and no profit is positive.
   */
  lemma SuccessfulResult(submission: Reply<Option<string>>, statuses: seq<Reply<Status>>,
                         dataset: Reply<seq<RawItem>>)
    requires |statuses| >= Poller.MaxAttempts
    requires Scrape(submission, statuses, dataset).Returned?
    requires Scrape(submission, statuses, dataset).result.error.None?
    ensures Poller.PollOf(statuses, dataset).0.Items?
    ensures var r := Scrape(submission, statuses, dataset).result;
            && 0 < |r.prices| <= |Poller.PollOf(statuses, dataset).0.items|
            && (exists i :: 0 <= i < |r.prices| && r.prices[i].price == r.basePrice)
            && (forall i :: 0 <= i < |r.prices| ==>
                  && r.basePrice <= r.prices[i].price
                  && r.prices[i].site == "Amazon" && r.prices[i].profit.Some?
                  && r.prices[i].profit.value <= 0.0)
  {
    ResultFromItems(submission, statuses, dataset);
    var items := Poller.PollOf(statuses, dataset).0.items;
    var prices := NormalizeAll(items);
    PricedListings(prices);
    var r := Priced(prices).result;
    assert forall i :: 0 <= i < |r.prices| ==> Fresh(prices[i]);
  }

  /**
   * The search raises exactly when the run succeeded in time and some
   * normalised listing is priced at zero.
   */
  lemma CrashOnlyOnZeroPrice(submission: Reply<Option<string>>, statuses: seq<Reply<Status>>,
                             dataset: Reply<seq<RawItem>>)
    requires |statuses| >= Poller.MaxAttempts
    ensures Scrape(submission, statuses, dataset).Crashed? <==>
            && submission.Answer? && submission.value.Some? && submission.value.value != ""
            && Poller.PollOf(statuses, dataset).0.Items?
            && exists i :: 0 <= i < |NormalizeAll(Poller.PollOf(statuses, dataset).0.items)|
                           && NormalizeAll(Poller.PollOf(statuses, dataset).0.items)[i].price == 0.0
  {
    if submission.Answer? && submission.value.Some? && submission.value.value != ""
       && Poller.PollOf(statuses, dataset).0.Items?
    {
      var prices := NormalizeAll(Poller.PollOf(statuses, dataset).0.items);
      assert Scrape(submission, statuses, dataset) == Priced(prices);
      if !NoZeroPrice(prices) {
        var i :| 0 <= i < |prices| && prices[i].price == 0.0;
        assert Priced(prices) == Crashed;
        assert Scrape(submission, statuses, dataset).Crashed?;
        assert exists j :: 0 <= j < |NormalizeAll(Poller.PollOf(statuses, dataset).0.items)|
                           && NormalizeAll(Poller.PollOf(statuses, dataset).0.items)[j].price == 0.0;
      } else {
        assert Priced(prices) != Crashed;
      }
    }
  }

  /**
   * A run that is still pending for nine checks and succeeds on the tenth is
   * reported as a timeout, although its dataset was fetched.
   */
  lemma SuccessOnTenthCheckReportsTimeout(runId: string, statuses: seq<Reply<Status>>,
                                          items: seq<RawItem>)
    requires runId != "" && |statuses| >= Poller.MaxAttempts
    requires forall j :: 0 <= j < Poller.MaxAttempts - 1 ==> Poller.Pending(statuses[j])
    requires statuses[Poller.MaxAttempts - 1] == Answer(Reported("SUCCEEDED"))
    ensures Scrape(Answer(Some(runId)), statuses, Answer(items)) == Returned(ErrorResult(PollTimeout))
    ensures Scrape(Answer(Some(runId)), statuses, Answer(items)).result.error
            == Some("Timed out waiting for Apify results")
  {
    Poller.SuccessOnLastCheckTimesOut(statuses, items);
  }
}

=== FILE: wrappers.dfy ===
/** The conventional optional-value datatype. */
module Wrappers {

  datatype Option<+T> = None | Some(value: T)
}
